=== FILE: README.md ===
# IBGE municipality scraper: a Dafny model of its decision logic

`CKP01.py` asks for a Brazilian state id and lists that state's
municipalities. For each municipality it drives a browser through the IBGE
*Cidades* portal (`scrape_ibge`) and reads three demographic indicators from
the page that is showing (`coletar_informacoes_municipio`): census
population, estimated population and population density. It appends one row
per municipality and closes the extra tab before moving on. At the end it
exports the table.

With Selenium, `requests`, BeautifulSoup and pandas replaced by abstract
inputs, what is left is the logic modelled here:

- `Text`: the Python and XPath string operations the program relies on.
  These are `str.strip`, BeautifulSoup's `get_text(strip=True)`,
  `str.isdigit` with `int(...)`, and XPath `contains()`.
- `Extraction`: `coletar_informacoes_municipio`, as a pure function from an
  already parsed page (its `<tr>` rows) to the three-field record, or to the
  `AttributeError` the code raises.
- `Navigation`: `scrape_ibge`, as a step machine.
  - The outcome of every `WebDriverWait` is an input (`Ok` or `Timeout`).
  - The browser is its window handles and the focused one.
  - `Scrape` says where the navigation ends and `Actions` says what it did on
    the way.
- `Harvest`: the driver logic of `main`. This is the validation of the typed
  state id, the loop over the municipalities (`HarvestLoop`, run by the method
  `Collect`) and the window reconciliation at the end of each iteration.
  `Run` puts them together.
- `Wrappers`: `Option` and `Result`.

The loop is written once, generically, as a fold of an `Iteration`. This is
any function from a municipality, what the portal does for it, and the
browser, to the row's fields and the next browser, or an error. `main`'s
loop is that fold with `Process` (navigate, extract, reconcile) as the
iteration.

In these cases the code does something a reader might not expect, and the
model follows the code:

- A page with no indicator row for a tab leaves that field `None`, not the
  unavailability text. The dictionary starts out all `None`, and only a found
  row changes a field.
- A row without a `span.unidade` does not give the unavailability text. It
  raises `AttributeError` (`find_previous` on `None`). Nothing catches it
  inside the loop, so the run ends after `driver.quit()` and no file is
  written (`RunResult.Aborted`).
- A navigation that stops early does not give an all-absent row. Extraction
  still runs, on whatever page the focused window shows.
- A found value span whose text is blank gives `""`. A BeautifulSoup `Tag` is
  always truthy, so the unavailability text is used only when there is no
  preceding span at all.

## Model

| member | source | states |
|---|---|---|
| Text.Strip | CKP01.py:89 | `strip()` removes whitespace only from the two ends: the result is a slice of the input, everything outside it is whitespace, and the result has no whitespace at either end |
| Text.StripIdempotent | CKP01.py:89 | a string with no surrounding whitespace is its own strip, so stripping twice equals stripping once |
| Text.GetText | CKP01.py:89 | the text of `get_text(strip=True)` has no surrounding whitespace, and it is empty whenever it is all whitespace |
| Text.GetTextIsConcat | CKP01.py:89 | `get_text(strip=True)` is exactly the element's text pieces, each stripped, concatenated in document order |
| Text.Contains | CKP01.py:65 | XPath `contains()` holds when the name is a prefix of the text, and never when the name is longer than the text |
| Text.ContainsOccurs | CKP01.py:65 | XPath `contains(text, name)` holds exactly when `name` occurs at some offset of `text` |
| Text.IsDigits | CKP01.py:125 | `isdigit` is false on the empty string, so an empty choice is never numeric |
| Text.ParseDecimal | CKP01.py:125 | `int` of a digit string of length `k` is below `10^k`, and at least `10^(k-1)` when the first digit is not zero |
| Text.ShowDecimal | CKP01.py:120 | the decimal form in which an id is displayed is all digits, with no leading zero |
| Text.ParseShow | CKP01.py:120-125 | a displayed id parses back to itself: `int(str(n)) == n` |
| Text.ShowParse | CKP01.py:120-125 | a numeric choice without a leading zero is exactly the displayed form of its value: `str(int(s)) == s` |
| Text.ParseLeadingZero | CKP01.py:125 | `int` ignores a leading zero |
| Extraction.FindRow | CKP01.py:86 | `soup.find('tr', class_='lista__indicador', tabindex=k)` returns the first matching row, and returns nothing exactly when no row matches |
| Extraction.ReadIndicator | CKP01.py:86-89 | a field is `None` exactly when no row matches. If the first matching row has no unit label, the read fails. If it has a preceding span, the field is that span's stripped text. Otherwise it is exactly "Informação não disponível" |
| Extraction.Extract | CKP01.py:79-103 | the record exists exactly when all three reads succeed, and then each field is the read of its own tabindex (1, 2, 3) |
| Extraction.ExtractFailsAtFirst | CKP01.py:86-101 | a failed extraction carries the error of the first failing read in the order census, estimate, density, and all earlier reads succeeded |
| Extraction.ExtractFailsIffUnlabelledRow | CKP01.py:86-101 | extraction fails exactly when, for some tabindex, the first indicator row exists and has no `span.unidade` |
| Extraction.MissingRowIsNone | CKP01.py:80-87 | with no row for a tabindex, that field's read gives `None`, never the unavailability text, and so does the field of a successful extraction |
| Extraction.RowForWithout | CKP01.py:86-98 | removing every row of one tabindex does not change which row is found for another |
| Extraction.ReadIndicatorWithout | CKP01.py:86-101 | with the span before each unit label given as part of that label, a field read depends only on its own tabindex's row (see Left out for `find_previous`) |
| Extraction.ExtractWithout | CKP01.py:79-101 | on a page whose extraction succeeds, removing the rows of one indicator keeps the extraction successful, turns that field into `None`, and leaves the other two fields unchanged |
| Extraction.ValueRowReads | CKP01.py:86-89 | a matching row whose unit label is preceded by a span holding one stripped value reads as that value |
| Extraction.ValuePageReads | CKP01.py:86-101 | in a page with the three indicator rows in order, each carrying a value span, each field reads as its own row's value |
| Navigation.FindContaining | CKP01.py:65 | the chosen result is the first link whose text contains the name, and none is chosen exactly when no link contains it |
| Navigation.PickLink | CKP01.py:63-66 | the XPath lookup selects a link only when the name has no apostrophe, and that link is the first one containing the name |
| Navigation.OpenWindows | CKP01.py:67 | a click that opens `n` windows adds `n` new handles, distinct from every existing one, after the existing ones; focus stays and the browser stays valid |
| Navigation.FinalBlock | CKP01.py:63-73 | the final block never fails outward. Focus moves exactly when the link is found and clicked and exactly two windows then exist, and it moves to the second handle. Otherwise the focus is unchanged, and new windows exist only if the click happened |
| Navigation.FinalActions | CKP01.py:63-73 | the block starts by waiting for the link. A script click happens exactly when the link is found, and it targets the first link containing the name. A caught failure ends with the success message, and a success ends by switching to the second handle |
| Navigation.Scrape | CKP01.py:24-73 | the three early returns happen exactly at the first timed-out wait among menu, submenu and search box, and leave the browser as it was. The detail tab is reached exactly when all four waits succeed, the name has no apostrophe, some link contains it, and exactly two windows then exist |
| Navigation.Actions | CKP01.py:24-73 | every navigation starts by loading the portal and waiting for the menu. It ends by switching to the detail tab exactly when that tab was reached, and with a console message otherwise |
| Navigation.ScrapeTrace | CKP01.py:26-73 | every navigation starts by loading the portal. After an early return nothing is cleared, typed, looked up or clicked, and the last action is the error message. A menu timeout clicks nothing; a submenu timeout clicks only the menu. The name is typed exactly when the navigation does not return early. Every script click follows a successful search and targets the first containing link. A swallowed failure ends with the success message |
| Harvest.FindState | CKP01.py:130 | the generator's `next` finds the first state with the id, and finds none exactly when no state has it |
| Harvest.SelectState | CKP01.py:125-131 | a choice is accepted exactly when it is all digits and its value is a listed id; then the abbreviation is that of the first state with that id |
| Harvest.SelectIgnoresLeadingZero | CKP01.py:125-131 | prefixing a zero to a numeric choice does not change the selection |
| Harvest.NonNumericRejected | CKP01.py:125-127 | a choice with a non-digit character is rejected whatever the states are |
| Harvest.RondoniaSelected | CKP01.py:125-131 | choosing "11" from a list holding Rondônia (id 11) selects "RO" |
| Harvest.Close | CKP01.py:155 | closing a window removes exactly that handle and keeps every other one. Handles stay distinct, and the first handle stays first unless it is the one closed, in which case the second becomes first |
| Harvest.Reconcile | CKP01.py:154-158 | with more than one window, the focused one is closed, every other is kept, and focus moves to the first remaining one. With one window nothing changes. The browser stays valid |
| Harvest.ReconcileClosesDetail | CKP01.py:154-156 | after focus moved to the second of two windows, reconciliation returns to the original single window |
| Harvest.ReconcileClosesFocusedOriginal | CKP01.py:154-156 | when focus never left the first of several windows, reconciliation closes that original window and focuses the next one |
| Harvest.Process | CKP01.py:142-158 | one iteration keeps the browser valid, and it only keeps old handles or adds new ones |
| Harvest.DetailOpenedReadsProfile | CKP01.py:63-76 | from a single window, when all four waits succeed and the click opens exactly one window, focus moves to that new tab and the row (or the extraction error) comes from its page |
| Harvest.SwallowedFailureReadsPortal | CKP01.py:63-76 | when the search is typed but the final block fails, the failure is swallowed, focus stays where it was, and the row (or the extraction error) comes from the focused window's page |
| Harvest.EarlyExitStillReads | CKP01.py:142-145 | from a single window, when the menu, submenu or search-box wait times out, the iteration still yields a row exactly when the original window's page extracts. The row is read from that page, and the windows are unchanged |
| Harvest.SubmenuTimeoutRow | CKP01.py:40-47 | a submenu timeout on a page without indicator rows yields a row with all three fields `None` |
| Harvest.ProcessKeepsSingleWindow | CKP01.py:142-158 | from a single window, an iteration whose click opens at most one window ends on that same window, focused |
| Harvest.HarvestLoop | CKP01.py:137-151 | a completed loop has exactly one row per municipality. A crash happens at some municipality with one row per earlier municipality. Row `i` is named after municipality `i` |
| Harvest.HarvestSnoc | CKP01.py:137-151 | the loop over `k + 1` municipalities is the loop over `k` followed by one more iteration |
| Harvest.HarvestPrefix | CKP01.py:148-151 | rows are only appended: a completed loop's prefix over the first `k` municipalities completed with its first `k` rows |
| Harvest.HarvestRow | CKP01.py:137-151 | row `k` of a completed loop holds municipality `k`'s name and the fields its iteration produced from the browser the earlier iterations left |
| Harvest.CrashAtFirstFailure | CKP01.py:137-151 | a crashed loop stopped at the first municipality whose iteration failed: every earlier one completed with the rows kept, and that iteration, from the browser they left, failed with the recorded error |
| Harvest.CrashIsFinal | CKP01.py:113-161 | once an extraction error escapes, no later municipality is processed |
| Harvest.HarvestValid | CKP01.py:137-158 | an iteration that keeps the browser valid keeps it valid over the whole loop |
| Harvest.HarvestKeepsWindow | CKP01.py:137-158 | an iteration that keeps a single valid window keeps it over the whole loop |
| Harvest.HarvestKeepsSingleWindow | CKP01.py:137-158 | from one window, with no click opening more than one window, `main`'s loop ends on that same window, focused |
| Harvest.Collect | CKP01.py:137-151 | the imperative loop computes the fold, with one row per municipality in order when it completes |
| Harvest.Run | CKP01.py:113-164 | a run is rejected exactly when the choice is not a listed numeric id. Otherwise the state is the selected one. An exported table is exactly the rows of the completed loop, one per municipality in order. An aborted run is a crashed loop, and it names the municipality where the loop crashed and carries its error |

## Left out

- The HTTP lookups `get_estados` and `get_municipios` (CKP01.py:11-22) are network I/O. Their results are the `states` and `ms` inputs of `Run`.
- The WebDriver setup and `driver.quit()` (CKP01.py:107-108, 161) are left out. So is the timing of every `WebDriverWait`: each wait is an `Ok`/`Timeout` input in `NavEnv.waits`, and a missing entry counts as a timeout.
- Scrape: the wait for two windows is decided by the number of handles right after the script click. A tab that opens late, while the wait is still polling, is not modelled.
- Scrape: the click right after the menu and submenu waits happens inside the same `try`. A failing click is folded into that wait's `Timeout`.
- HTML parsing and XPath evaluation (CKP01.py:65, 76) are libraries. The page is its parsed `<tr>` rows. `find_previous('span')` searches the whole document, so it is the `previous` field of the unit label and not derived from the row. The result links are their first text nodes.
- PickLink: a name with an apostrophe is treated as a malformed XPath, which lands in the swallowed path. A name whose quotes happen to form a valid expression is not modelled.
- The pandas table and the CSV export (CKP01.py:111, 148-151, 164) become a sequence of `Record`s.
- Console `print` and `input` (CKP01.py:116-122, 126, 139, 158, 165, 168) are left out. The typed id is the `input` parameter of `Run`. The three error messages and the success message of `scrape_ibge` are `Log` actions.
- Text.IsDigits: `str.isdigit` is limited to the ASCII digits. Python also accepts other Unicode digits.
- Extraction.Extract: the exception text is not modelled. The error records only the tabindex whose row had no unit label.
- Navigation.Scrape: the state abbreviation `uf` is not a parameter, because `scrape_ibge` never uses it.
- Harvest.Reconcile: on a browser that is not valid (duplicate handles), focus stays where it was if closing removes every window. The source never reaches that state.
- Extraction.ReadIndicatorWithout: a field is independent of the other rows only because the span before the unit label is an input of that label. In the program `find_previous('span')` walks back through the whole document. So when a row has a unit label but no value span of its own, its field reads a span of an earlier row, such as that row's unit text, and removing the earlier row changes it.
- Extraction.ExtractWithout: the same `find_previous` dependence applies. In the program, removing one indicator's rows can change another field whose row has no value span of its own.
- Navigation.Scrape: the browser calls outside any `try` are taken to succeed. These are `driver.get` (CKP01.py:27), `search_input.clear()` and `send_keys` (CKP01.py:59-60). In the program, an exception from any of them ends `main` after `driver.quit()` with no file written.
- Harvest.Process: `driver.page_source` (CKP01.py:76), `driver.close()` and `switch_to.window` (CKP01.py:155-156) are taken to succeed. An iteration fails here only by the missing unit label. In the program, a driver exception from these calls also ends the run with no file written.
- Navigation.OpenWindows and Harvest.Reconcile: `driver.window_handles` is taken to list the windows in the order they were opened. New handles are appended, `FinalBlock` focuses `handles[1]` and `Reconcile` focuses `handles[0]`. The WebDriver "Get Window Handles" command promises no order. Under another order, `window_handles[1]` after the click can be the original window, so the row is read from the search page and the original window is the one closed. `DetailOpenedReadsProfile`, `ReconcileClosesDetail`, `ProcessKeepsSingleWindow` and `HarvestKeepsSingleWindow` hold only under this assumption.
- Harvest.DetailOpenedReadsProfile: a window's page is not carried from one municipality to the next. Each `Visit` gives the page of the window focused before the navigation and the page of the tab focus moves to. So a tab left over from an earlier municipality is not told apart from a fresh one. In the program, a click that opens two windows leaves one of them open after reconciliation. A later municipality whose click opens no window then switches to that tab and records the earlier municipality's values. This lemma therefore starts from a single window, where the tab focus moves to is the one this click opened.

=== FILE: extraction.dfy ===
/** The indicator extractor of `coletar_informacoes_municipio`: three
    demographic values read from the municipality page by the position of
    their table row (`tabindex` 1, 2 and 3), over an already parsed page. */
module Extraction {
  import opened Wrappers
  import opened Text

  /** The CSS class every indicator row carries. */
  const IndicatorClass: string := "lista__indicador"

  /** What a field holds when its row exists but no value span precedes the
      unit label. */
  const Unavailable: string := "Informação não disponível"

  /** The `tabindex` values of the census population, estimated population
      and population density rows, in the order they are read. */
  const Tabs: seq<string> := ["1", "2", "3"]

  /** A `<span>` element, given by its text pieces in document order. */
  datatype Span = Span(texts: seq<string>)

  /** The first `span.unidade` of a row, with the nearest `<span>` before it
      in document order (BeautifulSoup's `find_previous('span')`, which
      searches the whole document and so may land outside the row). */
  datatype UnitLabel = UnitLabel(previous: Option<Span>)

  /** A `<tr>` of the page: its class tokens, its `tabindex` attribute and
      the first `span.unidade` among its descendants. */
  datatype TableRow = TableRow(classes: seq<string>, tabindex: Option<string>, unit: Option<UnitLabel>)

  /** A parsed page, reduced to its `<tr>` elements in document order. */
  datatype Page = Page(rows: seq<TableRow>)

  /** The dictionary the extractor returns, each value `None` or a string:
      `censusPopulation` is the key `populacao_ultimo_censo` (tabindex 1),
      `estimatedPopulation` is `populacao_estimada` (tabindex 2) and
      `density` is `densidade_demografica` (tabindex 3). */
  datatype Indicators = Indicators(
    censusPopulation: Option<string>,
    estimatedPopulation: Option<string>,
    density: Option<string>)

  /** The `AttributeError` raised when a row has no `span.unidade`
      (`find_previous` called on `None`). */
  datatype ExtractError = NoUnitLabel(tabindex: string)

  /** The field of the record that the row with `Tabs[k]` feeds. */
  function Field(ind: Indicators, k: nat): Option<string>
    requires k < |Tabs|
  {
    if k == 0 then ind.censusPopulation
    else if k == 1 then ind.estimatedPopulation
    else ind.density
  }

  /** The filter `tr` with `class_='lista__indicador'` and `tabindex=tab`. */
  predicate IsIndicatorRow(row: TableRow, tab: string) {
    IndicatorClass in row.classes && row.tabindex == Some(tab)
  }

  predicate NoIndicatorRow(rows: seq<TableRow>, tab: string) {
    forall i :: 0 <= i < |rows| ==> !IsIndicatorRow(rows[i], tab)
  }

  /** `rows[i]` is the first row matching the filter for `tab`. */
  predicate FirstIndicatorRow(rows: seq<TableRow>, tab: string, i: int) {
    && 0 <= i < |rows|
    && IsIndicatorRow(rows[i], tab)
    && forall j :: 0 <= j < i ==> !IsIndicatorRow(rows[j], tab)
  }

  /** `soup.find('tr', class_='lista__indicador', tabindex=tab)`: the
      position of the first matching row, if any. */
  function FindRow(rows: seq<TableRow>, tab: string): (r: Option<nat>)
    ensures r.Some? ==> FirstIndicatorRow(rows, tab, r.value)
    ensures r.None? <==> NoIndicatorRow(rows, tab)
  {
    if |rows| == 0 then None
    else if IsIndicatorRow(rows[0], tab) then Some(0)
    else
      match FindRow(rows[1..], tab)
      case None => None
      case Some(i) => Some(i + 1)
  }

  /** One field of the extraction: `None` when the page has no row for
      `tab`; otherwise the stripped text of the span before the unit label,
      the unavailability sentinel when there is no such span, or an error
      when the row has no unit label at all. */
  function ReadIndicator(page: Page, tab: string): (r: Result<Option<string>, ExtractError>)
    ensures NoIndicatorRow(page.rows, tab) <==> r == Success(None)
    ensures forall i | FirstIndicatorRow(page.rows, tab, i) ::
              page.rows[i].unit.None? <==> r == Failure(NoUnitLabel(tab))
    ensures forall i | FirstIndicatorRow(page.rows, tab, i) && page.rows[i].unit.Some? ::
              match page.rows[i].unit.value.previous
              case Some(span) => r == Success(Some(GetText(span.texts)))
              case None => r == Success(Some(Unavailable))
  {
    match FindRow(page.rows, tab)
    case None => Success(None)
    case Some(i) =>
      match page.rows[i].unit
      case None => Failure(NoUnitLabel(tab))
      case Some(unitLabel) =>
        match unitLabel.previous
        case Some(span) => Success(Some(GetText(span.texts)))
        case None => Success(Some(Unavailable))
  }

  /** `coletar_informacoes_municipio`: the three fields read in the order
      census, estimate, density; the first row without a unit label aborts
      the whole extraction. */
  function Extract(page: Page): (r: Result<Indicators, ExtractError>)
    ensures r.Success? <==> forall k :: 0 <= k < |Tabs| ==> ReadIndicator(page, Tabs[k]).Success?
    ensures r.Success? ==>
              forall k :: 0 <= k < |Tabs| ==> ReadIndicator(page, Tabs[k]) == Success(Field(r.value, k))
  {
    var census := ReadIndicator(page, Tabs[0]);
    if census.Failure? then Failure(census.error)
    else
      var estimate := ReadIndicator(page, Tabs[1]);
      if estimate.Failure? then Failure(estimate.error)
      else
        var density := ReadIndicator(page, Tabs[2]);
        if density.Failure? then Failure(density.error)
        else Success(Indicators(census.value, estimate.value, density.value))
  }

  /** A failed extraction reports the error of the first field, in the
      order census, estimate, density, whose read fails. */
  lemma ExtractFailsAtFirst(page: Page)
    requires Extract(page).Failure?
    ensures exists k :: && 0 <= k < |Tabs|
                        && ReadIndicator(page, Tabs[k]) == Failure(Extract(page).error)
                        && forall j :: 0 <= j < k ==> ReadIndicator(page, Tabs[j]).Success?
  {
    if ReadIndicator(page, Tabs[0]).Success? {
      if ReadIndicator(page, Tabs[1]).Failure? {
        assert forall j :: 0 <= j < 1 ==> ReadIndicator(page, Tabs[j]).Success?;
      } else {
        assert forall j :: 0 <= j < 2 ==> ReadIndicator(page, Tabs[j]).Success?;
      }
    }
  }

  /** The extraction fails exactly when, for some tab, the first indicator
      row exists and has no unit label. */
  lemma ExtractFailsIffUnlabelledRow(page: Page)
    ensures Extract(page).Failure?
        <==> exists k, i :: 0 <= k < |Tabs| && FirstIndicatorRow(page.rows, Tabs[k], i)
                            && page.rows[i].unit.None?
  {
    if Extract(page).Failure? {
      var k :| 0 <= k < |Tabs| && ReadIndicator(page, Tabs[k]).Failure?;
      var i := FindRow(page.rows, Tabs[k]).value;
      assert FirstIndicatorRow(page.rows, Tabs[k], i);
    }
  }

  /** A page without a row for `Tabs[k]` leaves that field `None`, never
      the unavailability sentinel. */
  lemma MissingRowIsNone(page: Page, k: nat)
    requires k < |Tabs|
    requires NoIndicatorRow(page.rows, Tabs[k])
    ensures ReadIndicator(page, Tabs[k]) == Success(None)
    ensures Extract(page).Success? ==> Field(Extract(page).value, k) == None
  {
  }

  /** The page with every row matching the filter for `tab` removed. */
  function Without(rows: seq<TableRow>, tab: string): (r: seq<TableRow>)
    ensures NoIndicatorRow(r, tab)
    ensures |r| <= |rows|
  {
    if |rows| == 0 then []
    else if IsIndicatorRow(rows[0], tab) then Without(rows[1..], tab)
    else [rows[0]] + Without(rows[1..], tab)
  }

  /** The first row matching the filter for `tab`, if any. */
  function RowFor(rows: seq<TableRow>, tab: string): Option<TableRow> {
    match FindRow(rows, tab)
    case None => None
    case Some(i) => Some(rows[i])
  }

  /** Removing the rows of one tab does not change which row the filter of
      another tab finds. */
  lemma {:induction false} RowForWithout(rows: seq<TableRow>, tab: string, other: string)
    requires other != tab
    ensures RowFor(Without(rows, tab), other) == RowFor(rows, other)
  {
    if |rows| > 0 {
      RowForWithout(rows[1..], tab, other);
      if !IsIndicatorRow(rows[0], tab) {
        var w := [rows[0]] + Without(rows[1..], tab);
        assert w[1..] == Without(rows[1..], tab);
      }
    }
  }

  /** A field depends only on its own row: reading `other` from the page
      without the rows of `tab` gives what it gave before. */
  lemma ReadIndicatorWithout(page: Page, tab: string, other: string)
    requires other != tab
    ensures ReadIndicator(Page(Without(page.rows, tab)), other) == ReadIndicator(page, other)
  {
    RowForWithout(page.rows, tab, other);
  }

  /** Removing the row of one indicator turns that field into `None` and
      leaves the other two fields unchanged. */
  lemma ExtractWithout(page: Page, k: nat)
    requires k < |Tabs|
    ensures Extract(page).Success? ==> Extract(Page(Without(page.rows, Tabs[k]))).Success?
    ensures Extract(page).Success? ==> Field(Extract(Page(Without(page.rows, Tabs[k]))).value, k) == None
    ensures Extract(page).Success? ==>
              forall j :: 0 <= j < |Tabs| && j != k ==>
                Field(Extract(Page(Without(page.rows, Tabs[k]))).value, j) == Field(Extract(page).value, j)
  {
    var smaller := Page(Without(page.rows, Tabs[k]));
    forall j | 0 <= j < |Tabs| && j != k
      ensures ReadIndicator(smaller, Tabs[j]) == ReadIndicator(page, Tabs[j])
    {
      ReadIndicatorWithout(page, Tabs[k], Tabs[j]);
    }
    assert ReadIndicator(smaller, Tabs[k]) == Success(None);
  }

  /** An indicator row whose value span reads `value`. */
  function ValueRow(tab: string, value: string): TableRow {
    TableRow([IndicatorClass], Some(tab), Some(UnitLabel(Some(Span([value])))))
  }

  /** A row built by `ValueRow` reads as its value when that value has no
      surrounding whitespace. */
  lemma ValueRowReads(page: Page, i: nat, tab: string, value: string)
    requires FirstIndicatorRow(page.rows, tab, i) && page.rows[i] == ValueRow(tab, value)
    requires Stripped(value)
    ensures ReadIndicator(page, tab) == Success(Some(value))
  {
    GetTextSingle(value);
    StripIdempotent(value);
  }

  /** The indicator list of a municipality page whose three rows all carry
      a value span. */
  function ValuePage(census: string, estimate: string, density: string): Page {
    Page([ValueRow("1", census), ValueRow("2", estimate), ValueRow("3", density)])
  }

  /** In a well-formed indicator list each field reads as the value of its
      own row. */
  lemma ValuePageReads(census: string, estimate: string, density: string, k: nat)
    requires k < |Tabs|
    requires Stripped([census, estimate, density][k])
    ensures ReadIndicator(ValuePage(census, estimate, density), Tabs[k])
         == Success(Some([census, estimate, density][k]))
  {
    var page := ValuePage(census, estimate, density);
    forall j | 0 <= j < k
      ensures !IsIndicatorRow(page.rows[j], Tabs[k])
    {
      assert page.rows[j].tabindex == Some(Tabs[j]);
    }
    ValueRowReads(page, k, Tabs[k], [census, estimate, density][k]);
  }
}

=== FILE: harvest.dfy ===
/** The driver logic of `main`: validating the chosen state id, the loop
    that navigates, extracts and appends one row per municipality, and the
    window reconciliation after each municipality. */
module Harvest {
  import opened Wrappers
  import opened Text
  import opened Extraction
  import opened Navigation

  /** A state as the location service lists it. */
  datatype State = State(id: int, nome: string, sigla: string)

  /** A municipality as the location service lists it; only its name is
      used. */
  datatype Municipality = Municipality(nome: string)

  /** One row of the result table. */
  datatype Record = Record(municipio: string, indicators: Indicators)

  /** What the portal does while one municipality is processed: the
      navigation's environment, the page the window focused before the
      navigation shows when extraction runs, and the page of the tab focus
      moves to after the click. */
  datatype Visit = Visit(nav: NavEnv, portal: Page, profile: Page)

  predicate KnownId(states: seq<State>, id: int) {
    exists i :: 0 <= i < |states| && states[i].id == id
  }

  /** `states[i]` is the first state whose id is `id`. */
  predicate FirstWithId(states: seq<State>, id: int, i: int) {
    && 0 <= i < |states|
    && states[i].id == id
    && forall j :: 0 <= j < i ==> states[j].id != id
  }

  /** `next(estado for estado in estados if estado['id'] == id)`. */
  function FindState(states: seq<State>, id: int): (r: Option<nat>)
    ensures r.Some? ==> FirstWithId(states, id, r.value)
    ensures r.None? <==> !KnownId(states, id)
  {
    if |states| == 0 then None
    else if states[0].id == id then Some(0)
    else
      match FindState(states[1..], id)
      case None => None
      case Some(i) =>
        assert states[1..][i] == states[i + 1];
        Some(i + 1)
  }

  /** The validation of the typed state id: accepted only when it is all
      digits and its value is a listed id; then the abbreviation of the
      first state with that id. */
  function SelectState(states: seq<State>, input: string): (r: Option<string>)
    ensures r.Some? <==> IsDigits(input) && KnownId(states, ParseDecimal(input))
    ensures r.Some? ==>
              exists i :: FirstWithId(states, ParseDecimal(input), i) && r.value == states[i].sigla
  {
    if !IsDigits(input) then None
    else
      match FindState(states, ParseDecimal(input))
      case None => None
      case Some(i) => Some(states[i].sigla)
  }

  /** Leading zeros do not change the selection: "011" picks what "11"
      picks. */
  lemma SelectIgnoresLeadingZero(states: seq<State>, input: string)
    requires IsDigits(input)
    ensures SelectState(states, "0" + input) == SelectState(states, input)
  {
    ParseLeadingZero(input);
  }

  /** A non-numeric choice is rejected whatever the states are. */
  lemma NonNumericRejected(states: seq<State>, input: string)
    requires exists i :: 0 <= i < |input| && !IsDigit(input[i])
    ensures SelectState(states, input) == None
  {
  }

  /** Choosing 11 from a list holding Rondônia selects "RO". */
  lemma RondoniaSelected()
    ensures SelectState([State(11, "Rondônia", "RO")], "11") == Some("RO")
  {
    var states := [State(11, "Rondônia", "RO")];
    assert ParseDecimal("11") == 11 by {
      assert "11"[..1] == "1";
      assert "1"[..0] == "";
    }
    assert FirstWithId(states, 11, 0);
  }

  /** `hs` with `h` removed, the rest in their order. */
  function Close(hs: seq<nat>, h: nat): (r: seq<nat>)
    ensures forall x :: x in r <==> x in hs && x != h
    ensures h !in hs ==> r == hs
    ensures Distinct(hs) ==> Distinct(r)
    ensures Distinct(hs) && h in hs ==> |r| == |hs| - 1
    ensures |hs| > 0 && hs[0] != h ==> |r| > 0 && r[0] == hs[0]
    ensures |hs| > 1 && hs[0] == h && Distinct(hs) ==> |r| > 0 && r[0] == hs[1]
  {
    if |hs| == 0 then []
    else
      var rest := Close(hs[1..], h);
      if hs[0] == h then
        assert Distinct(hs) ==> h !in hs[1..];
        rest
      else
        assert Distinct(hs) ==> hs[0] !in rest;
        assert h !in hs ==> hs == [hs[0]] + hs[1..];
        [hs[0]] + rest
  }

  /** The end of each loop iteration: with more than one window open, close
      the focused window and focus the first remaining one; with one window,
      do nothing. (A valid browser always keeps a window to focus.) */
  function Reconcile(b: Browser): (r: Browser)
    ensures Valid(b) ==> Valid(r)
    ensures Valid(b) && |b.handles| > 1 ==>
              && |r.handles| == |b.handles| - 1
              && b.focus !in r.handles
              && (forall h :: h in b.handles && h != b.focus ==> h in r.handles)
              && r.focus == (if b.handles[0] != b.focus then b.handles[0] else b.handles[1])
    ensures |b.handles| <= 1 ==> r == b
    ensures forall h :: h in r.handles ==> h in b.handles
  {
    if |b.handles| > 1 then
      var rest := Close(b.handles, b.focus);
      Browser(rest, if |rest| > 0 then rest[0] else b.focus, b.nextHandle)
    else b
  }

  /** After focus moved to the second of two windows, reconciliation closes
      it and returns to the first, original window. */
  lemma ReconcileClosesDetail(b: Browser)
    requires Valid(b) && |b.handles| == 2 && b.focus == b.handles[1]
    ensures Reconcile(b) == Browser([b.handles[0]], b.handles[0], b.nextHandle)
  {
    var r := Reconcile(b);
    assert r.handles[0] == b.handles[0];
  }

  /** When the focus never left the first window but several are open,
      reconciliation closes that first window and focuses the next one. */
  lemma ReconcileClosesFocusedOriginal(b: Browser)
    requires Valid(b) && |b.handles| > 1 && b.focus == b.handles[0]
    ensures b.handles[0] !in Reconcile(b).handles
    ensures Reconcile(b).focus == b.handles[1]
  {
  }

  /** The page the focused window shows when extraction runs. */
  function CurrentPage(v: Visit, outcome: Outcome): (page: Page)
    ensures outcome == DetailOpened ==> page == v.profile
    ensures outcome.EarlyExit() || outcome.DetailMissing? ==> page == v.portal
  {
    if outcome == DetailOpened then v.profile else v.portal
  }

  /** What one iteration yields: the fields of the row and the browser
      afterwards. */
  datatype Step = Step(indicators: Indicators, browser: Browser)

  /** One iteration of the loop of `main`, as a function of the
      municipality, what the portal does for it, and the browser. */
  type Iteration = (Municipality, Visit, Browser) -> Result<Step, ExtractError>

  /** One iteration of the loop: navigate, extract from whatever page is
      current (whether or not the navigation reached it), reconcile the
      windows. An extraction error propagates. */
  function Process(m: Municipality, v: Visit, b: Browser): (r: Result<Step, ExtractError>)
    ensures Valid(b) && r.Success? ==> Valid(r.value.browser)
    ensures r.Success? ==> forall h :: h in r.value.browser.handles ==> h in b.handles || h >= b.nextHandle
  {
    var nav := Scrape(m.nome, v.nav, b);
    match Extract(CurrentPage(v, nav.outcome))
    case Failure(e) => Failure(e)
    case Success(fields) => Success(Step(fields, Reconcile(nav.browser)))
  }

  /** From a single window, when the four waits succeed and the click opens
      exactly one window, focus moves to that new tab and the row is read
      from it. */
  lemma DetailOpenedReadsProfile(m: Municipality, v: Visit, b: Browser)
    requires |b.handles| == 1
    requires WaitAt(v.nav, 0).Ok? && WaitAt(v.nav, 1).Ok? && WaitAt(v.nav, 2).Ok?
    requires Clicks(m.nome, v.nav) && |b.handles| + v.nav.opens == DetailWindows
    ensures Process(m, v, b).Success? <==> Extract(v.profile).Success?
    ensures Extract(v.profile).Success? ==> Process(m, v, b).value.indicators == Extract(v.profile).value
    ensures Extract(v.profile).Failure? ==> Process(m, v, b) == Failure(Extract(v.profile).error)
  {
    assert Scrape(m.nome, v.nav, b).outcome == DetailOpened;
  }

  /** When the search is typed but the final block fails (no link found in
      time, a malformed lookup, or a window count other than two), the
      failure is swallowed and the row is read from the page the focused
      window shows. */
  lemma SwallowedFailureReadsPortal(m: Municipality, v: Visit, b: Browser)
    requires WaitAt(v.nav, 0).Ok? && WaitAt(v.nav, 1).Ok? && WaitAt(v.nav, 2).Ok?
    requires !Clicks(m.nome, v.nav) || |b.handles| + v.nav.opens != DetailWindows
    ensures Process(m, v, b).Success? <==> Extract(v.portal).Success?
    ensures Extract(v.portal).Success? ==> Process(m, v, b).value.indicators == Extract(v.portal).value
    ensures Extract(v.portal).Failure? ==> Process(m, v, b) == Failure(Extract(v.portal).error)
  {
    assert Scrape(m.nome, v.nav, b).outcome.DetailMissing?;
  }

  /** A navigation that stops early still yields a row: it is read from the
      page the focused window shows, and the windows are left as they
      were. */
  lemma EarlyExitStillReads(m: Municipality, v: Visit, b: Browser)
    requires |b.handles| == 1
    requires WaitAt(v.nav, 0).Timeout? || WaitAt(v.nav, 1).Timeout? || WaitAt(v.nav, 2).Timeout?
    ensures Process(m, v, b).Success? <==> Extract(v.portal).Success?
    ensures Extract(v.portal).Success? ==> Process(m, v, b) == Success(Step(Extract(v.portal).value, b))
  {
    assert Scrape(m.nome, v.nav, b).outcome.EarlyExit();
  }

  /** A municipality whose navigation times out at the submenu, on a portal
      page without indicator rows, gives a row with all three fields
      `None`. */
  lemma SubmenuTimeoutRow(v: Visit, b: Browser)
    requires |b.handles| == 1
    requires WaitAt(v.nav, 0).Ok? && WaitAt(v.nav, 1).Timeout?
    requires v.portal == Page([])
    ensures Process(Municipality("Xyz"), v, b) == Success(Step(Indicators(None, None, None), b))
  {
    var nav := Scrape("Xyz", v.nav, b);
    assert nav.outcome == SubmenuNotFound;
    forall k | 0 <= k < |Tabs|
      ensures ReadIndicator(v.portal, Tabs[k]) == Success(None)
    {
      assert NoIndicatorRow(v.portal.rows, Tabs[k]);
    }
  }

  /** From a single window, a municipality whose click opens at most one
      window leaves exactly that window open and focused. */
  lemma ProcessKeepsSingleWindow(m: Municipality, v: Visit, b: Browser)
    requires Valid(b) && |b.handles| == 1 && v.nav.opens <= 1
    requires Process(m, v, b).Success?
    ensures Process(m, v, b).value.browser.handles == b.handles
    ensures Process(m, v, b).value.browser.focus == b.focus
  {
    var nav := Scrape(m.nome, v.nav, b);
    if nav.outcome == DetailOpened {
      assert nav.browser.handles[..1] == b.handles;
      ReconcileClosesDetail(nav.browser);
    } else if !nav.outcome.EarlyExit() && Clicks(m.nome, v.nav) {
      assert v.nav.opens == 0;
      assert nav.browser.handles == b.handles by {
        assert nav.browser.handles[..1] == b.handles;
      }
    }
  }

  /** The result of the loop: every row so far and the browser, or the
      extraction error that aborted the loop at municipality `at`, with the
      rows collected before it. */
  datatype Batch =
    | Completed(rows: seq<Record>, browser: Browser)
    | Crashed(rows: seq<Record>, at: nat, error: ExtractError)

  /** One more municipality for the loop: nothing once it has crashed;
      otherwise run the iteration and append the municipality's row, or
      record the crash at position `n`. */
  function Extend(prev: Batch, m: Municipality, v: Visit, n: nat, step: Iteration): (r: Batch)
    ensures prev.Crashed? ==> r == prev
    ensures prev.Completed? && r.Completed? ==>
              && step(m, v, prev.browser).Success?
              && r.rows == prev.rows + [Record(m.nome, step(m, v, prev.browser).value.indicators)]
              && r.browser == step(m, v, prev.browser).value.browser
    ensures prev.Completed? && r.Crashed? ==>
              r.rows == prev.rows && r.at == n && step(m, v, prev.browser) == Failure(r.error)
  {
    match prev
    case Crashed(_, _, _) => prev
    case Completed(rows, browser) =>
      match step(m, v, browser)
      case Failure(e) => Crashed(rows, n, e)
      case Success(s) => Completed(rows + [Record(m.nome, s.indicators)], s.browser)
  }

  /** The loop of `main` as a fold of `step` over the municipalities. */
  function HarvestLoop(ms: seq<Municipality>, vs: seq<Visit>, b: Browser, step: Iteration): (r: Batch)
    requires |vs| == |ms|
    ensures r.Completed? ==> |r.rows| == |ms|
    ensures r.Crashed? ==> r.at < |ms| && |r.rows| == r.at
    ensures forall i :: 0 <= i < |r.rows| ==> r.rows[i].municipio == ms[i].nome
    decreases |ms|
  {
    if |ms| == 0 then Completed([], b)
    else
      var n := |ms| - 1;
      Extend(HarvestLoop(ms[..n], vs[..n], b, step), ms[n], vs[n], n, step)
  }

  /** The loop over the first `k + 1` municipalities is the loop over the
      first `k` followed by one more iteration. */
  lemma HarvestSnoc(ms: seq<Municipality>, vs: seq<Visit>, b: Browser, step: Iteration, k: nat)
    requires |vs| == |ms| && k < |ms|
    ensures HarvestLoop(ms[..k + 1], vs[..k + 1], b, step)
         == Extend(HarvestLoop(ms[..k], vs[..k], b, step), ms[k], vs[k], k, step)
  {
    assert ms[..k + 1][..k] == ms[..k] && vs[..k + 1][..k] == vs[..k];
  }

  /** Rows are appended, never rewritten: when the loop completes, the loop
      over any prefix of the municipalities completed with a prefix of the
      rows. */
  lemma {:induction false} HarvestPrefix(ms: seq<Municipality>, vs: seq<Visit>, b: Browser, step: Iteration, k: nat)
    requires |vs| == |ms| && k <= |ms|
    requires HarvestLoop(ms, vs, b, step).Completed?
    ensures HarvestLoop(ms[..k], vs[..k], b, step).Completed?
    ensures HarvestLoop(ms[..k], vs[..k], b, step).rows == HarvestLoop(ms, vs, b, step).rows[..k]
    decreases |ms|
  {
    if k < |ms| {
      var n := |ms| - 1;
      var shorter, shorterVisits := ms[..n], vs[..n];
      var rows := HarvestLoop(ms, vs, b, step).rows;
      assert HarvestLoop(shorter, shorterVisits, b, step).rows == rows[..n];
      HarvestPrefix(shorter, shorterVisits, b, step, k);
      assert shorter[..k] == ms[..k] && shorterVisits[..k] == vs[..k];
      assert rows[..n][..k] == rows[..k];
    } else {
      assert ms[..k] == ms && vs[..k] == vs;
    }
  }

  /** Each row of a completed loop holds the municipality's name and the
      fields its iteration produced, from the browser the earlier
      iterations left. */
  lemma HarvestRow(ms: seq<Municipality>, vs: seq<Visit>, b: Browser, step: Iteration, k: nat)
    requires |vs| == |ms| && k < |ms|
    requires HarvestLoop(ms, vs, b, step).Completed?
    ensures var before := HarvestLoop(ms[..k], vs[..k], b, step);
      && before.Completed?
      && step(ms[k], vs[k], before.browser).Success?
      && HarvestLoop(ms, vs, b, step).rows[k]
         == Record(ms[k].nome, step(ms[k], vs[k], before.browser).value.indicators)
  {
    HarvestPrefix(ms, vs, b, step, k);
    HarvestPrefix(ms, vs, b, step, k + 1);
    HarvestSnoc(ms, vs, b, step, k);
    var after := HarvestLoop(ms[..k + 1], vs[..k + 1], b, step);
    assert after.rows[k] == HarvestLoop(ms, vs, b, step).rows[k];
  }

  /** Once an extraction error aborts the loop, the later municipalities are
      never processed: the result over the whole list is the crash. */
  lemma {:induction false} CrashIsFinal(ms: seq<Municipality>, vs: seq<Visit>, b: Browser, step: Iteration, k: nat)
    requires |vs| == |ms| && k <= |ms|
    requires HarvestLoop(ms[..k], vs[..k], b, step).Crashed?
    ensures HarvestLoop(ms, vs, b, step) == HarvestLoop(ms[..k], vs[..k], b, step)
    decreases |ms|
  {
    if k < |ms| {
      var n := |ms| - 1;
      assert HarvestLoop(ms[..n], vs[..n], b, step) == HarvestLoop(ms[..k], vs[..k], b, step) by {
        assert ms[..n][..k] == ms[..k] && vs[..n][..k] == vs[..k];
        CrashIsFinal(ms[..n], vs[..n], b, step, k);
      }
      assert HarvestLoop(ms, vs, b, step) == HarvestLoop(ms[..n], vs[..n], b, step) by {
        HarvestSnoc(ms, vs, b, step, n);
        assert ms[..n + 1] == ms && vs[..n + 1] == vs;
      }
    } else {
      assert ms[..k] == ms && vs[..k] == vs;
    }
  }

  /** A crashed loop stopped at the first municipality whose iteration
      failed: every earlier one completed, and the iteration at `at`, from
      the browser they left, failed with the recorded error. */
  lemma {:induction false} CrashAtFirstFailure(ms: seq<Municipality>, vs: seq<Visit>, b: Browser, step: Iteration)
    requires |vs| == |ms|
    requires HarvestLoop(ms, vs, b, step).Crashed?
    ensures var r := HarvestLoop(ms, vs, b, step);
      var before := HarvestLoop(ms[..r.at], vs[..r.at], b, step);
      && before.Completed?
      && before.rows == r.rows
      && step(ms[r.at], vs[r.at], before.browser) == Failure(r.error)
    decreases |ms|
  {
    var r := HarvestLoop(ms, vs, b, step);
    var n := |ms| - 1;
    var prev := HarvestLoop(ms[..n], vs[..n], b, step);
    if prev.Crashed? {
      CrashAtFirstFailure(ms[..n], vs[..n], b, step);
      assert ms[..n][..r.at] == ms[..r.at] && vs[..n][..r.at] == vs[..r.at];
      assert ms[..n][r.at] == ms[r.at] && vs[..n][r.at] == vs[r.at];
    }
  }

  /** An iteration that keeps the browser valid keeps it valid over the
      whole loop. */
  lemma {:induction false} HarvestValid(ms: seq<Municipality>, vs: seq<Visit>, b: Browser, step: Iteration)
    requires |vs| == |ms| && Valid(b)
    requires forall m, v, c :: Valid(c) && step(m, v, c).Success? ==> Valid(step(m, v, c).value.browser)
    ensures HarvestLoop(ms, vs, b, step).Completed? ==> Valid(HarvestLoop(ms, vs, b, step).browser)
    decreases |ms|
  {
    if |ms| > 0 {
      var n := |ms| - 1;
      HarvestValid(ms[..n], vs[..n], b, step);
    }
  }

  /** An iteration that, from a single valid window, leaves that window open
      and focused does so over the whole loop. */
  lemma {:induction false} HarvestKeepsWindow(ms: seq<Municipality>, vs: seq<Visit>, b: Browser, step: Iteration)
    requires |vs| == |ms| && Valid(b) && |b.handles| == 1
    requires forall m, v, c :: Valid(c) && step(m, v, c).Success? ==> Valid(step(m, v, c).value.browser)
    requires forall i, c ::
               (0 <= i < |ms| && Valid(c) && c.handles == b.handles && c.focus == b.focus
                && step(ms[i], vs[i], c).Success?) ==>
                 && step(ms[i], vs[i], c).value.browser.handles == b.handles
                 && step(ms[i], vs[i], c).value.browser.focus == b.focus
    ensures HarvestLoop(ms, vs, b, step).Completed? ==>
              && HarvestLoop(ms, vs, b, step).browser.handles == b.handles
              && HarvestLoop(ms, vs, b, step).browser.focus == b.focus
    decreases |ms|
  {
    if |ms| > 0 {
      var n := |ms| - 1;
      HarvestKeepsWindow(ms[..n], vs[..n], b, step);
      HarvestValid(ms[..n], vs[..n], b, step);
    }
  }

  /** With a single window to begin with and no click ever opening more than
      one window, the loop of `main` ends on that same single window. */
  lemma HarvestKeepsSingleWindow(ms: seq<Municipality>, vs: seq<Visit>, b: Browser)
    requires |vs| == |ms| && Valid(b) && |b.handles| == 1
    requires forall i :: 0 <= i < |vs| ==> vs[i].nav.opens <= 1
    ensures HarvestLoop(ms, vs, b, Process).Completed? ==>
              && HarvestLoop(ms, vs, b, Process).browser.handles == b.handles
              && HarvestLoop(ms, vs, b, Process).browser.focus == b.focus
  {
    forall i, c | 0 <= i < |ms| && Valid(c) && c.handles == b.handles && c.focus == b.focus
                  && Process(ms[i], vs[i], c).Success?
      ensures Process(ms[i], vs[i], c).value.browser.handles == b.handles
      ensures Process(ms[i], vs[i], c).value.browser.focus == b.focus
    {
      ProcessKeepsSingleWindow(ms[i], vs[i], c);
    }
    HarvestKeepsWindow(ms, vs, b, Process);
  }

  /** The loop of `main`: for each municipality in order, run the iteration
      and append one row, stopping at the first error. */
  method Collect(ms: seq<Municipality>, vs: seq<Visit>, b: Browser, step: Iteration) returns (r: Batch)
    requires |vs| == |ms|
    ensures r == HarvestLoop(ms, vs, b, step)
    ensures r.Completed? ==> |r.rows| == |ms|
    ensures forall i :: 0 <= i < |r.rows| ==> r.rows[i].municipio == ms[i].nome
  {
    var rows: seq<Record> := [];
    var browser := b;
    var i := 0;
    while i < |ms|
      invariant 0 <= i <= |ms|
      invariant HarvestLoop(ms[..i], vs[..i], b, step) == Completed(rows, browser)
    {
      HarvestSnoc(ms, vs, b, step, i);
      match step(ms[i], vs[i], browser) {
        case Failure(e) =>
          CrashIsFinal(ms, vs, b, step, i + 1);
          return Crashed(rows, i, e);
        case Success(s) =>
          rows := rows + [Record(ms[i].nome, s.indicators)];
          browser := s.browser;
      }
      i := i + 1;
    }
    assert ms[..i] == ms && vs[..i] == vs;
    r := Completed(rows, browser);
  }

  /** How a run of `main` ends: the state choice rejected before anything
      else; an extraction error that escapes the loop, so that no file is
      written; or the table exported for state `uf`. */
  datatype RunResult =
    | Rejected
    | Aborted(uf: string, municipio: string, error: ExtractError)
    | Exported(uf: string, table: seq<Record>)

  /** `main`, given the listed states, the typed id, the municipalities the
      location service lists for the chosen state, and one portal visit per
      municipality. */
  function Run(states: seq<State>, input: string, ms: seq<Municipality>, vs: seq<Visit>, b: Browser): (r: RunResult)
    requires |vs| == |ms|
    ensures r.Rejected? <==> !(IsDigits(input) && KnownId(states, ParseDecimal(input)))
    ensures !r.Rejected? ==> SelectState(states, input) == Some(r.uf)
    ensures r.Exported? ==>
              && |r.table| == |ms|
              && forall i :: 0 <= i < |ms| ==> r.table[i].municipio == ms[i].nome
    ensures r.Exported? ==>
              && HarvestLoop(ms, vs, b, Process).Completed?
              && r.table == HarvestLoop(ms, vs, b, Process).rows
    ensures r.Aborted? ==>
              && HarvestLoop(ms, vs, b, Process).Crashed?
              && r.municipio == ms[HarvestLoop(ms, vs, b, Process).at].nome
              && r.error == HarvestLoop(ms, vs, b, Process).error
  {
    match SelectState(states, input)
    case None => Rejected
    case Some(uf) =>
      match HarvestLoop(ms, vs, b, Process)
      case Crashed(_, at, e) => Aborted(uf, ms[at].nome, e)
      case Completed(rows, _) => Exported(uf, rows)
  }
}

=== FILE: navigation.dfy ===
/** The per-municipality navigation of `scrape_ibge`: load the portal, open
    the side menu, open the municipalities entry, type the name into the
    search box, script-click the first matching result and move focus to the
    tab it opens. Every `WebDriverWait` is an input outcome; the browser is
    reduced to its window handles and the focused one. */
module Navigation {
  import opened Wrappers
  import opened Text

  const PortalUrl: string := "https://cidades.ibge.gov.br/"
  const MenuId: string := "abaMenuLateral"
  const SubmenuId: string := "menu__municipio"
  const SearchId: string := "busca"

  /** Every wait of the navigation polls for at most this many seconds. */
  const WaitSeconds: nat := 10

  /** The windows the navigation waits for before moving focus. */
  const DetailWindows: nat := 2

  /** How one bounded wait (and the action right after it) ended. */
  datatype Wait = Ok | Timeout

  /** What a wait polls for: an element by id, a result link whose text
      contains the name, or a number of open windows. */
  datatype Target = Element(id: string) | ResultLink(name: string) | WindowCount(count: nat)

  /** The console messages of the navigation. `Collected` is the success
      message printed when the final block raised. */
  datatype Note = MenuError | SubmenuError | SearchBoxError | Collected(name: string)

  /** The observable actions the navigation performs on the browser, in
      order. */
  datatype Action =
    | Load(url: string)
    | Await(target: Target, seconds: nat)
    | Click(id: string)
    | ClearSearch
    | Type(text: string)
    | ScriptClick(link: nat)
    | SwitchTo(handle: nat)
    | Log(note: Note)

  /** The browser session: open window handles, the focused handle, and the
      next handle a new window will receive. `handles` is taken to list the
      windows in the order they were opened, which is what `window_handles`
      is read as at CKP01.py:71 and 156. */
  datatype Browser = Browser(handles: seq<nat>, focus: nat, nextHandle: nat)

  predicate Distinct(hs: seq<nat>) {
    forall i, j :: 0 <= i < j < |hs| ==> hs[i] != hs[j]
  }

  /** Handles are distinct, already issued, and the focus is one of them. */
  predicate Valid(b: Browser) {
    && |b.handles| > 0
    && b.focus in b.handles
    && Distinct(b.handles)
    && (forall h :: h in b.handles ==> h < b.nextHandle)
  }

  /** What the portal does during one navigation: the outcomes of the waits
      for the menu, the submenu, the search box and the result link, in that
      order (a missing outcome is a timeout); the first text node of every
      `li/a` result in document order; and how many windows the script click
      on a result opens. */
  datatype NavEnv = NavEnv(waits: seq<Wait>, links: seq<string>, opens: nat)

  /** Where the swallowed final block stopped. */
  datatype Stage = LinkLookup | TabCount

  /** How `scrape_ibge` ended: one of its three early returns, focus moved to
      the detail tab, or a swallowed failure of the final block. */
  datatype Outcome =
    | MenuNotFound
    | SubmenuNotFound
    | SearchInputNotFound
    | DetailOpened
    | DetailMissing(stage: Stage)
  {
    /** One of the three early returns. */
    predicate EarlyExit() {
      MenuNotFound? || SubmenuNotFound? || SearchInputNotFound?
    }
  }

  /** Where one navigation ended: its outcome and the browser afterwards.
      The actions it performed on the way are given by `Actions`. */
  datatype NavResult = NavResult(outcome: Outcome, browser: Browser)

  function WaitAt(env: NavEnv, i: nat): Wait {
    if i < |env.waits| then env.waits[i] else Timeout
  }

  /** The XPath `//li/a[contains(text(), '<name>')]` is only well formed when
      the name has no apostrophe; otherwise the lookup raises. */
  predicate QuotableName(name: string) {
    '\'' !in name
  }

  /** `links[i]` is the first link whose text contains `name`. */
  predicate FirstContaining(links: seq<string>, name: string, i: int) {
    && 0 <= i < |links|
    && Contains(links[i], name)
    && forall j :: 0 <= j < i ==> !Contains(links[j], name)
  }

  function FindContaining(links: seq<string>, name: string): (r: Option<nat>)
    ensures r.Some? ==> FirstContaining(links, name, r.value)
    ensures r.None? <==> forall i :: 0 <= i < |links| ==> !Contains(links[i], name)
  {
    if |links| == 0 then None
    else if Contains(links[0], name) then Some(0)
    else
      match FindContaining(links[1..], name)
      case None => None
      case Some(i) => Some(i + 1)
  }

  /** The link the XPath lookup selects, if the lookup succeeds. */
  function PickLink(name: string, links: seq<string>): (r: Option<nat>)
    ensures r.Some? ==> QuotableName(name) && FirstContaining(links, name, r.value)
    ensures r.None? <==> !QuotableName(name) || forall i :: 0 <= i < |links| ==> !Contains(links[i], name)
  {
    if QuotableName(name) then FindContaining(links, name) else None
  }

  /** The browser after `n` new windows have opened; focus stays put. */
  function OpenWindows(b: Browser, n: nat): (r: Browser)
    ensures |r.handles| == |b.handles| + n
    ensures r.handles[..|b.handles|] == b.handles
    ensures r.focus == b.focus
    ensures forall i :: |b.handles| <= i < |r.handles| ==> r.handles[i] >= b.nextHandle
    ensures Valid(b) ==> Valid(r)
  {
    var r := Browser(b.handles + seq(n, i => b.nextHandle + i), b.focus, b.nextHandle + n);
    OpenWindowsValid(b, n, r);
    r
  }

  lemma OpenWindowsValid(b: Browser, n: nat, r: Browser)
    requires r == Browser(b.handles + seq(n, i => b.nextHandle + i), b.focus, b.nextHandle + n)
    ensures Valid(b) ==> Valid(r)
  {
    var added := seq(n, i => b.nextHandle + i);
    assert forall h :: h in added ==> b.nextHandle <= h < b.nextHandle + n;
    assert forall h :: h in r.handles ==> h in b.handles || h in added;
    if Valid(b) {
      forall i, j | 0 <= i < j < |r.handles|
        ensures r.handles[i] != r.handles[j]
      {
        if j >= |b.handles| {
          assert r.handles[j] == b.nextHandle + (j - |b.handles|);
          if i < |b.handles| {
            assert r.handles[i] in b.handles;
          }
        }
      }
    }
  }

  /** No action of `trace` types into, clears, or looks up results in the
      search box. */
  predicate NoSearch(trace: seq<Action>) {
    forall a | a in trace ::
      && !a.ClearSearch? && !a.Type? && !a.ScriptClick?
      && (a.Await? ==> !a.target.ResultLink?)
  }

  /** The result link is found in time and the lookup is well formed, so the
      script click happens. */
  predicate Clicks(name: string, env: NavEnv) {
    WaitAt(env, 3).Ok? && PickLink(name, env.links).Some?
  }

  /** The `try` block at the end of `scrape_ibge`: look the result link up,
      script-click it, wait for two windows and focus the second one. Any
      failure in it is caught. */
  function FinalBlock(name: string, env: NavEnv, b: Browser): (r: NavResult)
    ensures r.outcome == DetailOpened || r.outcome.DetailMissing?
    ensures r.outcome == DetailMissing(LinkLookup) <==> !Clicks(name, env)
    ensures r.outcome == DetailOpened <==> Clicks(name, env) && |b.handles| + env.opens == DetailWindows
    ensures r.outcome == DetailOpened ==>
              |r.browser.handles| == DetailWindows && r.browser.focus == r.browser.handles[1]
    ensures r.outcome != DetailOpened ==> r.browser.focus == b.focus
    ensures r.browser.handles == if Clicks(name, env) then OpenWindows(b, env.opens).handles else b.handles
    ensures Valid(b) ==> Valid(r.browser)
  {
    if !Clicks(name, env) then NavResult(DetailMissing(LinkLookup), b)
    else
      var spawned := OpenWindows(b, env.opens);
      if |spawned.handles| != DetailWindows then NavResult(DetailMissing(TabCount), spawned)
      else NavResult(DetailOpened, spawned.(focus := spawned.handles[1]))
  }

  /** The actions of the final block: the wait for the result link; then,
      when the link is clicked, the wait for two windows and the switch to
      the second; a caught failure ends with the success message. */
  function FinalActions(name: string, env: NavEnv, b: Browser): (t: seq<Action>)
    ensures |t| > 0 && t[0] == Await(ResultLink(name), WaitSeconds)
    ensures (exists a | a in t :: a.ScriptClick?) <==> Clicks(name, env)
    ensures forall a | a in t && a.ScriptClick? ::
              QuotableName(name) && FirstContaining(env.links, name, a.link)
    ensures FinalBlock(name, env, b).outcome.DetailMissing? <==> t[|t| - 1] == Log(Collected(name))
    ensures FinalBlock(name, env, b).outcome == DetailOpened ==>
              t[|t| - 1] == SwitchTo(FinalBlock(name, env, b).browser.focus)
    ensures forall a | a in t :: !a.Type? && !a.Click?
  {
    var lookup := [Await(ResultLink(name), WaitSeconds)];
    var fin := FinalBlock(name, env, b);
    if !Clicks(name, env) then lookup + [Log(Collected(name))]
    else
      var clicked := lookup + [ScriptClick(PickLink(name, env.links).value), Await(WindowCount(DetailWindows), WaitSeconds)];
      assert clicked[1].ScriptClick?;
      if fin.outcome == DetailOpened then clicked + [SwitchTo(fin.browser.focus)]
      else clicked + [Log(Collected(name))]
  }

  /** `scrape_ibge(name, uf, driver)`: where the navigation ends. The state
      abbreviation `uf` is not used by the source and so is not a parameter
      here. */
  function Scrape(name: string, env: NavEnv, b: Browser): (r: NavResult)
    ensures r.outcome == MenuNotFound <==> WaitAt(env, 0).Timeout?
    ensures r.outcome == SubmenuNotFound <==> WaitAt(env, 0).Ok? && WaitAt(env, 1).Timeout?
    ensures r.outcome == SearchInputNotFound
        <==> WaitAt(env, 0).Ok? && WaitAt(env, 1).Ok? && WaitAt(env, 2).Timeout?
    ensures r.outcome.EarlyExit() ==> r.browser == b
    ensures r.outcome == DetailOpened
        <==> !r.outcome.EarlyExit() && Clicks(name, env) && |b.handles| + env.opens == DetailWindows
    ensures r.outcome == DetailOpened ==>
              |r.browser.handles| == DetailWindows && r.browser.focus == r.browser.handles[1]
    ensures r.outcome != DetailOpened ==> r.browser.focus == b.focus
    ensures r.browser.handles
         == if !r.outcome.EarlyExit() && Clicks(name, env) then OpenWindows(b, env.opens).handles else b.handles
    ensures Valid(b) ==> Valid(r.browser)
  {
    if WaitAt(env, 0).Timeout? then NavResult(MenuNotFound, b)
    else if WaitAt(env, 1).Timeout? then NavResult(SubmenuNotFound, b)
    else if WaitAt(env, 2).Timeout? then NavResult(SearchInputNotFound, b)
    else FinalBlock(name, env, b)
  }

  /** The actions of a navigation that reaches the search box: load, open
      the menu, open the municipalities entry, clear the box and type. */
  function SearchSteps(name: string): (r: seq<Action>)
    ensures |r| == 8 && r[7] == Type(name)
  {
    [ Load(PortalUrl), Await(Element(MenuId), WaitSeconds), Click(MenuId),
      Await(Element(SubmenuId), WaitSeconds), Click(SubmenuId),
      Await(Element(SearchId), WaitSeconds), ClearSearch, Type(name) ]
  }

  /** The actions `scrape_ibge` performs, in order: the steps up to the wait
      that failed followed by its error message, or all the search steps
      followed by the final block. */
  function Actions(name: string, env: NavEnv, b: Browser): (t: seq<Action>)
    ensures |t| > 2 && t[0] == Load(PortalUrl) && t[1] == Await(Element(MenuId), WaitSeconds)
    ensures Scrape(name, env, b).outcome == DetailOpened
        <==> t[|t| - 1] == SwitchTo(Scrape(name, env, b).browser.focus)
    ensures Scrape(name, env, b).outcome != DetailOpened ==> t[|t| - 1].Log?
  {
    match Scrape(name, env, b).outcome
    case MenuNotFound => SearchSteps(name)[..2] + [Log(MenuError)]
    case SubmenuNotFound => SearchSteps(name)[..4] + [Log(SubmenuError)]
    case SearchInputNotFound => SearchSteps(name)[..6] + [Log(SearchBoxError)]
    case DetailOpened | DetailMissing(_) => SearchSteps(name) + FinalActions(name, env, b)
  }

  /** The actions of a navigation. It starts by loading the portal. An
      early return performs no search: nothing is cleared, typed, looked up
      or clicked after the failing wait, and the last action is the error
      message. The search is typed exactly when the three first waits
      succeed; every script click targets the first result whose text
      contains the name; and a failure of the final block is swallowed, its
      last action being the success message. */
  lemma ScrapeTrace(name: string, env: NavEnv, b: Browser)
    ensures var r := Scrape(name, env, b); var t := Actions(name, env, b);
      && |t| > 0 && t[0] == Load(PortalUrl)
      && (r.outcome.EarlyExit() ==> NoSearch(t) && t[|t| - 1].Log?)
      && (r.outcome == MenuNotFound ==> forall a | a in t :: !a.Click?)
      && (r.outcome == SubmenuNotFound ==> forall a | a in t :: a.Click? ==> a.id == MenuId)
      && (Type(name) in t <==> !r.outcome.EarlyExit())
      && (forall a | a in t && a.ScriptClick? ::
            && !r.outcome.EarlyExit()
            && QuotableName(name) && FirstContaining(env.links, name, a.link))
      && (r.outcome.DetailMissing? <==> t[|t| - 1] == Log(Collected(name)))
  {
    var r := Scrape(name, env, b);
    var t := Actions(name, env, b);
    var steps := SearchSteps(name);
    if !r.outcome.EarlyExit() {
      var fin := FinalActions(name, env, b);
      assert t == steps + fin;
      assert t[|t| - 1] == fin[|fin| - 1];
      assert t[7] == Type(name);
      forall a | a in t && a.ScriptClick?
        ensures QuotableName(name) && FirstContaining(env.links, name, a.link)
      {
        assert a in fin;
      }
    }
  }
}

=== FILE: text.dfy ===
/** The few Python string operations the scraper relies on: `str.strip`,
    BeautifulSoup's `get_text(strip=True)`, `str.isdigit` with `int(...)`,
    and the XPath `contains()` test used to pick a search result. */
module Text {

  /** Python's `str.isspace` for one character (the full list of code points
      Python treats as whitespace). */
  predicate IsSpace(c: char) {
    var n := c as int;
    || n == 0x20
    || 0x09 <= n <= 0x0d
    || 0x1c <= n <= 0x1f
    || n == 0x85 || n == 0xa0 || n == 0x1680
    || 0x2000 <= n <= 0x200a
    || n == 0x2028 || n == 0x2029 || n == 0x202f || n == 0x205f || n == 0x3000
  }

  predicate AllSpace(s: string) {
    forall i :: 0 <= i < |s| ==> IsSpace(s[i])
  }

  /** Neither end of `s` is whitespace: what `strip()` guarantees. */
  predicate Stripped(s: string) {
    s == [] || (!IsSpace(s[0]) && !IsSpace(s[|s| - 1]))
  }

  /** `s.lstrip()`: the longest suffix of `s` not starting with whitespace. */
  function TrimStart(s: string): (r: string)
    ensures |r| <= |s| && r == s[|s| - |r|..]
    ensures AllSpace(s[..|s| - |r|])
    ensures r == [] || !IsSpace(r[0])
  {
    if |s| > 0 && IsSpace(s[0]) then TrimStart(s[1..]) else s
  }

  /** `s.rstrip()`: the longest prefix of `s` not ending in whitespace. */
  function TrimEnd(s: string): (r: string)
    ensures |r| <= |s| && r == s[..|r|]
    ensures AllSpace(s[|r|..])
    ensures r == [] || !IsSpace(r[|r| - 1])
  {
    if |s| > 0 && IsSpace(s[|s| - 1]) then TrimEnd(s[..|s| - 1]) else s
  }

  /** `s.strip()`: `s` with the whitespace removed from both ends and
      nothing else changed. */
  function Strip(s: string): (r: string)
    ensures Stripped(r)
    ensures exists lo :: StripsTo(s, lo, r)
  {
    var t := TrimStart(s);
    var r := TrimEnd(t);
    StripSlice(s, t, r);
    r
  }

  /** `r` is the slice of `s` starting at `lo`, and everything of `s` outside
      that slice is whitespace. */
  predicate StripsTo(s: string, lo: int, r: string) {
    && 0 <= lo <= |s| - |r|
    && r == s[lo..lo + |r|]
    && AllSpace(s[..lo]) && AllSpace(s[lo + |r|..])
  }

  lemma StripSlice(s: string, t: string, r: string)
    requires |t| <= |s| && t == s[|s| - |t|..] && AllSpace(s[..|s| - |t|])
    requires t == [] || !IsSpace(t[0])
    requires |r| <= |t| && r == t[..|r|] && AllSpace(t[|r|..])
    requires r == [] || !IsSpace(r[|r| - 1])
    ensures StripsTo(s, |s| - |t|, r)
    ensures Stripped(r)
  {
    var lo := |s| - |t|;
    forall i | 0 <= i < |r|
      ensures s[lo + i] == r[i]
    {
      assert r[i] == t[i] && t[i] == s[lo + i];
    }
    assert s[lo..lo + |r|] == r;
    assert s[lo + |r|..] == t[|r|..];
    if r != [] {
      assert r[0] == t[0];
    }
  }

  /** A string that already has no whitespace at either end is its own
      `strip()`; hence stripping twice is stripping once. */
  lemma StripIdempotent(s: string)
    ensures Stripped(s) ==> Strip(s) == s
    ensures Strip(Strip(s)) == Strip(s)
  {
  }

  /** BeautifulSoup's `get_text(strip=True)` with the default empty
      separator: every text piece of the element stripped, the empty ones
      dropped, the rest concatenated in document order. */
  function GetText(pieces: seq<string>): (r: string)
    ensures Stripped(r)
    ensures AllSpace(r) ==> r == []
  {
    if |pieces| == 0 then ""
    else
      var head := Strip(pieces[0]);
      var rest := GetText(pieces[1..]);
      if head == [] then rest
      else if rest == [] then head
      else
        JoinStripped(head, rest);
        head + rest
  }

  /** The text pieces stripped one by one and concatenated in order, empty
      ones included: an independent reading of `get_text(strip=True)`. */
  function ConcatStripped(pieces: seq<string>): string {
    if |pieces| == 0 then "" else Strip(pieces[0]) + ConcatStripped(pieces[1..])
  }

  /** Dropping the blank pieces before joining changes nothing: `GetText`
      is the concatenation of the stripped pieces. */
  lemma {:induction false} GetTextIsConcat(pieces: seq<string>)
    ensures GetText(pieces) == ConcatStripped(pieces)
  {
    if |pieces| > 0 {
      GetTextIsConcat(pieces[1..]);
      var head, rest := Strip(pieces[0]), GetText(pieces[1..]);
      if head == [] {
        assert head + rest == rest;
      } else if rest == [] {
        assert head + rest == head;
      }
    }
  }

  /** Two non-empty stripped texts joined are stripped and not blank. */
  lemma JoinStripped(head: string, rest: string)
    requires head != [] && rest != [] && Stripped(head) && Stripped(rest)
    ensures Stripped(head + rest) && !AllSpace(head + rest)
  {
    assert (head + rest)[0] == head[0];
    assert (head + rest)[|head + rest| - 1] == rest[|rest| - 1];
  }

  /** An element with a single text piece reads as that piece stripped. */
  lemma {:induction false} GetTextSingle(piece: string)
    ensures GetText([piece]) == Strip(piece)
  {
    assert [piece][1..] == [];
  }

  /** XPath 1.0 `contains(haystack, needle)`. */
  predicate Contains(haystack: string, needle: string)
    ensures Contains(haystack, needle) ==> |needle| <= |haystack|
    ensures needle <= haystack ==> Contains(haystack, needle)
    decreases |haystack|
  {
    && |needle| <= |haystack|
    && (haystack[..|needle|] == needle || Contains(haystack[1..], needle))
  }

  /** `needle` occurs in `haystack` at offset `k`. */
  predicate OccursAt(haystack: string, needle: string, k: int) {
    0 <= k <= |haystack| - |needle| && haystack[k..k + |needle|] == needle
  }

  /** `Contains` holds exactly when `needle` occurs at some offset of
      `haystack`. */
  lemma {:induction false} ContainsOccurs(haystack: string, needle: string)
    ensures Contains(haystack, needle) <==> exists k :: OccursAt(haystack, needle, k)
    decreases |haystack|
  {
    if |needle| <= |haystack| && haystack[..|needle|] != needle {
      ContainsOccurs(haystack[1..], needle);
      if Contains(haystack[1..], needle) {
        var k :| OccursAt(haystack[1..], needle, k);
        assert haystack[1..][k..k + |needle|] == haystack[k + 1..k + 1 + |needle|];
        assert OccursAt(haystack, needle, k + 1);
      }
      if exists k :: OccursAt(haystack, needle, k) {
        var k :| OccursAt(haystack, needle, k);
        assert k != 0;
        assert haystack[1..][k - 1..k - 1 + |needle|] == haystack[k..k + |needle|];
        assert OccursAt(haystack[1..], needle, k - 1);
      }
    } else if |needle| <= |haystack| {
      assert OccursAt(haystack, needle, 0);
    } else {
      assert forall k :: !OccursAt(haystack, needle, k);
    }
  }

  predicate IsDigit(c: char) {
    '0' <= c <= '9'
  }

  /** `s.isdigit()`, restricted to the ASCII digits: false on the empty
      string. */
  predicate IsDigits(s: string)
    ensures IsDigits(s) ==> s != []
  {
    |s| > 0 && forall i :: 0 <= i < |s| ==> IsDigit(s[i])
  }

  function DigitValue(c: char): (d: nat)
    requires IsDigit(c)
    ensures d < 10
  {
    (c - '0') as nat
  }

  function DigitChar(d: nat): (c: char)
    requires d < 10
    ensures IsDigit(c) && DigitValue(c) == d
  {
    ('0' as int + d) as char
  }

  /** `10` to the power `k`. */
  function Pow10(k: nat): (p: nat)
    ensures p >= 1
  {
    if k == 0 then 1 else 10 * Pow10(k - 1)
  }

  /** `int(s)` on a string of decimal digits (leading zeros allowed). */
  function ParseDecimal(s: string): (n: nat)
    requires forall i :: 0 <= i < |s| ==> IsDigit(s[i])
    ensures n < Pow10(|s|)
    ensures |s| > 0 && s[0] != '0' ==> n >= Pow10(|s| - 1)
  {
    if |s| == 0 then 0
    else 10 * ParseDecimal(s[..|s| - 1]) + DigitValue(s[|s| - 1])
  }

  /** `str(n)` for a natural number: its decimal digits, no leading zero. */
  function ShowDecimal(n: nat): (s: string)
    ensures IsDigits(s)
    ensures |s| > 1 ==> s[0] != '0'
  {
    if n < 10 then [DigitChar(n)]
    else ShowDecimal(n / 10) + [DigitChar(n % 10)]
  }

  /** `int(str(n)) == n`. */
  lemma {:induction false} ParseShow(n: nat)
    ensures ParseDecimal(ShowDecimal(n)) == n
  {
    var s := ShowDecimal(n);
    if n >= 10 {
      ParseShow(n / 10);
      assert s[..|s| - 1] == ShowDecimal(n / 10);
    }
  }

  /** `int` ignores leading zeros: `int("0" + s) == int(s)`. */
  lemma {:induction false} ParseLeadingZero(s: string)
    requires forall i :: 0 <= i < |s| ==> IsDigit(s[i])
    ensures ParseDecimal("0" + s) == ParseDecimal(s)
  {
    if |s| > 0 {
      ParseLeadingZero(s[..|s| - 1]);
      assert ("0" + s)[..|"0" + s| - 1] == "0" + s[..|s| - 1];
    }
  }

  /** A numeric string without a leading zero is the decimal form of its
      own value: `str(int(s)) == s`. */
  lemma {:induction false} ShowParse(s: string)
    requires IsDigits(s) && (|s| == 1 || s[0] != '0')
    ensures ShowDecimal(ParseDecimal(s)) == s
  {
    var n := ParseDecimal(s);
    var d := DigitValue(s[|s| - 1]);
    if |s| == 1 {
      assert DigitChar(d) == s[0];
    } else {
      var init := s[..|s| - 1];
      assert init[0] == s[0];
      ShowParse(init);
      assert n / 10 == ParseDecimal(init) && n % 10 == d;
      assert DigitChar(d) == s[|s| - 1];
      assert s == init + [s[|s| - 1]];
    }
  }
}

=== FILE: wrappers.dfy ===
/** Failure-carrying datatypes shared by the other modules. */
module Wrappers {

  /** An optional value; stands for Python's `None`-or-value fields. */
  datatype Option<+T> = None | Some(value: T)

  /** The outcome of a computation that can raise: a value or an error. */
  datatype Result<+T, +E> = Success(value: T) | Failure(error: E)
}
